=== FILE: README.md ===
# Fraud-checked checkout: a Dafny model

This project models the decision logic of a two-service checkout demo:

- the fraud detector's `/predict` endpoint. It applies rule weights to the order (0.6 for an
  amount above 5000, 0.4 for a country in RU, CN, NG, BR). It adds jitter, clamps the score
  to [0, 1] and flags fraud strictly above 0.7. It names a reason by rule precedence.
- the order service's `POST /order` handler. It validates the body, consults the scorer and
  fails open when the scorer is unavailable. It then settles the payment, which fails 10% of
  the time, and persists the completed order in the in-memory `orders_db`.
- the order service's `GET /orders` listing.

The model is purely functional. The randomness, the clock and the network call are inputs:

- the jitter and the simulated processing time of the scorer;
- the scorer's answer, either `ScoreOk(reply)` or `ScoreUnavailable`;
- the payment draw;
- the clock in whole seconds and the random id suffix.

Scores are `real`. The store is a value threaded through each call.

Modules:

- `Wrappers` (`wrappers.dfy`): the `Option` type used for absent JSON fields.
- `Requests` (`requests.dfy`): the JSON body both services read. It has three optional fields
  and a count of other keys, so an empty object is distinguishable.
- `FraudDetector` (`fraud_detector.dfy`): the scoring rule and the `/predict` reply.
- `OrderIds` (`order_ids.dfy`): identifiers of the form `ord_<seconds>_<suffix>`. Parsing one
  recovers both numbers.
- `OrderStore` (`order_store.dfy`): the store and the listing. A Python dict keeps its keys in
  first-insertion order, so the store keeps an id sequence next to the map.
- `OrderService` (`order_service.dfy`): the `create_order` step, and a run of successive
  requests against one store.

## Model

| member | source | states |
|---|---|---|
| Requests.Missing | demo-services/fraud-detector/app.py:45 | a body counts as missing exactly when there is no JSON object or the object's key count is zero (a dict is falsy iff it has no keys) |
| FraudDetector.Clamp | demo-services/fraud-detector/app.py:70 | the clamped score lies in [0, 1]; it equals the input inside the interval and the nearer bound outside |
| FraudDetector.RuleTotal | demo-services/fraud-detector/app.py:57-66 | the rule total is 0, 0.4, 0.6 or 1; it reaches 0.6 exactly when the amount exceeds 5000 and includes 0.4 exactly when the country is risky |
| FraudDetector.Assess | demo-services/fraud-detector/app.py:57-74 | the score is the rule total plus jitter, clamped to [0, 1]; fraud iff score > 0.7; threshold 0.7; reason `high_amount` iff amount > 5000, `risk_country` iff amount <= 5000 and the country is risky, `low_risk` otherwise; with jitter in [-0.1, 0.1], the score is within 0.1 of the rule total and fraud holds iff both rules fire |
| FraudDetector.Predict | demo-services/fraud-detector/app.py:44-89 | a missing or empty body, and only that, gives the 400 error reply; otherwise user id defaults to `unknown`, amount to 0 and country to `US`, and the reply is the assessment of those values |
| FraudDetector.HighAmountAloneNotFraud | demo-services/fraud-detector/app.py:57-73 | a high amount from a non-risky country scores at most 0.7 and is never fraud |
| FraudDetector.RiskyCountryAloneAtMostHalf | demo-services/fraud-detector/app.py:57-70 | a risky country with amount <= 5000 scores at most 0.5 |
| FraudDetector.ScoreIgnoresUserAndExtraFields | demo-services/fraud-detector/app.py:48-74 | two bodies with the same effective amount and country get the same score, decision and reason, whatever their user ids, other keys or processing times |
| FraudDetector.HighAmountTakesPrecedence | demo-services/fraud-detector/app.py:74 | amount 6000 from RU gives reason `high_amount`, fraud, and a score of at least 0.9 |
| OrderIds.OrderIdFor | demo-services/order-service/app.py:94 | an id is `ord_`, then the clock seconds in decimal digits, then `_`, then the suffix in decimal digits |
| OrderIds.NatToString | demo-services/order-service/app.py:94 | an integer prints as a non-empty string of decimal digits without a leading zero |
| OrderIds.ParseNatToString | demo-services/order-service/app.py:94 | reading back the printed digits gives the integer |
| OrderIds.ParseOrderIdFor | demo-services/order-service/app.py:94 | parsing an order id built from seconds and suffix gives back exactly those two numbers |
| OrderIds.OrderIdInjective | demo-services/order-service/app.py:94 | two order ids are equal iff they were built in the same second with the same suffix |
| OrderIds.SuffixHasFourDigits | demo-services/order-service/app.py:94 | a suffix from 1000..9999 prints as four digits |
| OrderStore.Put | demo-services/order-service/app.py:95-100 | storing maps the id to the record and changes no other key; a new id is appended to the insertion order and an existing one keeps its place; the store invariant and "only completed records" are preserved |
| OrderStore.ListOrders | demo-services/order-service/app.py:122 | the listing holds each stored id exactly once and nothing else, and `count` equals the number of stored orders |
| OrderStore.DistinctCard | demo-services/order-service/app.py:122 | a repetition-free list of ids has as many entries as its set |
| OrderStore.ListingAfterPut | demo-services/order-service/app.py:95-122 | after a store, a fresh id is listed after all earlier ones and the count grows by one; a reused id leaves the listing unchanged |
| OrderService.Validate | demo-services/order-service/app.py:54-62 | a body is valid iff its user id is present and non-empty and its amount (default 0) is positive; a valid order carries those fields, with country defaulting to `US` |
| OrderService.ScorerRequest | demo-services/order-service/app.py:67-71 | the body posted to the scorer carries the validated user id, amount and country, is never empty, and validates back to the same order |
| OrderService.FraudFlagOnDetectorReply | demo-services/order-service/app.py:72-74 | against the fraud detector's own replies, the order service sees fraud exactly when the body was not missing and the detector's assessment says `is_fraud`; the detector's 400 reply, which has no `is_fraud`, never flags |
| OrderService.CreateOrder | demo-services/order-service/app.py:49-112 | 400 iff the body is missing, empty or invalid (with the matching error text); 403 iff accepted and the scorer's reply flags fraud, with the scorer's reply as details; 402 iff accepted, not flagged, and the draw is below 0.1; 201 otherwise, with the built order id, status `completed` and the request amount; the store is unchanged except on 201, where exactly the new id maps to the completed record and the store is the dict assignment of that record, so a fresh id is listed last and a reused id keeps its place; store validity and "only completed records" are preserved |
| OrderService.RejectedIgnoresScorerAndPayment | demo-services/order-service/app.py:50-62 | for a rejected body the outcome is the same whatever the scorer answers and whatever the payment draw, so neither is consulted |
| OrderService.FraudIgnoresPayment | demo-services/order-service/app.py:73-80 | a fraud-flagged reply decides the outcome before the payment draw is used |
| OrderService.FailOpen | demo-services/order-service/app.py:66-83 | an unavailable scorer gives exactly the outcome of any not-fraud reply, and never 403 |
| OrderService.ScorerAcceptsOrderRequest | demo-services/order-service/app.py:67-71 | the body the order service posts is never rejected by the scorer |
| OrderService.FraudRejectionEndToEnd | demo-services/order-service/app.py:66-80 | with the real scorer and jitter in [-0.1, 0.1], an accepted order gets 403 iff its amount exceeds 5000 and its country is risky |
| OrderService.CollisionOverwrites | demo-services/order-service/app.py:94-95 | a success whose id is already stored replaces the record without growing the store or changing the listing |
| OrderService.Run | demo-services/order-service/app.py:95-100 | successive requests give one response each, keep every earlier id at its place in the listing order, and preserve the store invariant and "only completed records"; which request each response answers is stated by `OrderService.RunResponses` |
| OrderService.RunResponses | demo-services/order-service/app.py:49-112 | the i-th response of a run is exactly the reply to the i-th request against the store the earlier requests left behind |
| OrderService.RunPersistence | demo-services/order-service/app.py:95-112 | after any run, an id is stored iff it was stored before or some request of the run got 201 with that id |
| OrderService.SmallDomesticOrderCompletes | demo-services/order-service/app.py:94-112 | u1 ordering 100 from US with zero jitter and a passing draw scores 0, gets 201, and the empty store then holds exactly that completed order |
| OrderService.LargeRiskyOrderRejected | demo-services/order-service/app.py:73-80 | u2 ordering 6000 from RU with zero jitter scores 1.0 with reason `high_amount`, gets 403, and the store is unchanged |

## Left out

- HTTP routing, JSON parsing, the `home`, `health` and `metrics` endpoints, and the
  background metrics thread. These are transport and observability, not decision logic.
- Prometheus counters and histograms. They are not modelled. Only one of them can change an
  outcome; see the overflowing amount below.
- `time.sleep`, wall-clock timing and the order service's processing time. The scorer's
  sampled processing time is an input and is reported as milliseconds.
- The random draws (jitter, processing time, payment draw, id suffix) and `time.time()`.
  They are parameters.
- The HTTP call to the scorer, with its 3-second timeout and environment-supplied URL. It is
  represented only by its outcome. Every failure (timeout, refused connection, non-JSON
  body) is one `ScoreUnavailable` value, because the code handles them all alike.
- Scorer replies from a service other than this fraud detector are not modelled. `ScoreOk`
  carries one of the fraud detector's own replies: an assessment, or an error body without
  `is_fraud`.
- IEEE-754 arithmetic and the rounding of `risk_score` to 3 places and of the processing time
  to 2 places. Scores are exact reals, so a jitter landing exactly at a boundary behaves as
  in exact arithmetic.
- JSON `null` fields, non-string `user_id` and `country` values, and non-object bodies. The
  typed request cannot represent them. In the code they behave as follows:
  - a falsy non-string `user_id` (`null`, `0`, `false`) gets 400 "Invalid order data" from the order
    service; the fraud detector echoes it back as the user id;
  - a truthy non-string `user_id`, such as `42`, passes validation and is stored with the order;
  - a `null` or non-string `country` is not a risky country, and a successful order is stored
    with it;
  - a falsy non-object body (`[]`, `0`, `""`, `false`) fails the emptiness test and gets 400
    from both services;
  - a `null` or non-numeric amount raises in the fraud detector's amount comparison and gets its
    catch-all 500 reply. The order service tests the user id first, so such an amount gets 400
    when the user id is absent or falsy, and 500 otherwise. The 500 path is not modelled;
  - a truthy non-object body raises on field lookup and gets the catch-all 500 reply in both
    services.
- An integer amount too large for a float, such as `10**400`. JSON parsing keeps it exact and
  validation lets it through. After the order is written to the store, recording the amount
  in the `order_amount` histogram adds it to a float sum. That addition overflows, so the
  handler answers 500 with the order already stored. The model's amount is an exact `real`,
  so it answers 201 instead. For such an amount, the "stored iff answered 201" property of
  `OrderService.RunPersistence` does not hold in the code.
- FraudDetector.Assess: `isFraud <==> riskScore > 0.7` holds for the unrounded score only.
  The fraud decision is taken on the unrounded score, but the reply reports it rounded to 3
  places. A real reply can therefore show 0.7 with `is_fraud` true.
- Order-id uniqueness is not claimed. Ids are injective in (second, suffix) only, and a
  collision overwrites (`OrderService.CollisionOverwrites`).
- Concurrent requests against the shared store. `OrderService.Run` handles requests one
  after another.

=== FILE: fraud_detector.dfy ===
/**
 The risk scoring rule of the fraud detector's `/predict` endpoint. The two
 random draws of the service — the jitter added to the score and the simulated
 processing time — are parameters, so the rule is a pure function of its inputs.
 */
module FraudDetector {
  import opened Wrappers
  import opened Requests

  const Threshold: real := 0.7
  const HighAmountLimit: real := 5000.0
  const HighAmountWeight: real := 0.6
  const RiskyCountryWeight: real := 0.4
  const MaxJitter: real := 0.1
  const ModelVersion: string := "fraud-v2.1"
  const DefaultUserId: string := "unknown"

  /** Countries whose transactions add the country weight. */
  const RiskyCountries: seq<string> := ["RU", "CN", "NG", "BR"]

  datatype Reason = HighAmount | RiskCountry | LowRisk

  /** The body of a 200 reply from `/predict`. */
  datatype Assessment = Assessment(
    userId: string,
    riskScore: real,
    isFraud: bool,
    threshold: real,
    reason: Reason,
    modelVersion: string,
    processingTimeMs: real)

  /** Every reply `/predict` can send: a scored assessment, or an `{"error": …}` body. */
  datatype Reply = Scored(assessment: Assessment) | ErrorReply(status: int, error: string)

  predicate IsHighAmount(amount: real) {
    amount > HighAmountLimit
  }

  predicate IsRiskyCountry(country: string) {
    country in RiskyCountries
  }

  /** The range the service draws its jitter from, uniformly. */
  predicate JitterInRange(jitter: real) {
    -MaxJitter <= jitter <= MaxJitter
  }

  function Min(a: real, b: real): real { if a <= b then a else b }
  function Max(a: real, b: real): real { if a >= b then a else b }

  /** Clamping to the unit interval: the nearest point of [0, 1] to `x`. */
  function Clamp(x: real): (c: real)
    ensures 0.0 <= c <= 1.0
    ensures 0.0 <= x <= 1.0 ==> c == x
    ensures x < 0.0 ==> c == 0.0
    ensures x > 1.0 ==> c == 1.0
  {
    Max(0.0, Min(1.0, x))
  }

  /** The sum of the weights of the rules that fire, before jitter. */
  function RuleTotal(amount: real, country: string): (t: real)
    ensures t == 0.0 || t == 0.4 || t == 0.6 || t == 1.0
    ensures t >= HighAmountWeight <==> IsHighAmount(amount)
    ensures (t == 0.4 || t == 1.0) <==> IsRiskyCountry(country)
  {
    (if IsHighAmount(amount) then HighAmountWeight else 0.0)
    + (if IsRiskyCountry(country) then RiskyCountryWeight else 0.0)
  }

  /**
   The score, decision and reason for an amount and country, given the jitter.
   The reason follows rule precedence, not which rule drove the score.
   */
  function Assess(userId: string, amount: real, country: string, jitter: real, processTime: real): (a: Assessment)
    ensures 0.0 <= a.riskScore <= 1.0
    ensures a.riskScore == Clamp(RuleTotal(amount, country) + jitter)
    ensures a.isFraud <==> a.riskScore > Threshold
    ensures a.threshold == 0.7
    ensures a.reason == HighAmount <==> IsHighAmount(amount)
    ensures a.reason == RiskCountry <==> !IsHighAmount(amount) && IsRiskyCountry(country)
    ensures a.reason == LowRisk <==> !IsHighAmount(amount) && !IsRiskyCountry(country)
    // with jitter in its drawn range the score stays within 0.1 of the rule total
    ensures JitterInRange(jitter) ==>
              RuleTotal(amount, country) - MaxJitter <= a.riskScore <= RuleTotal(amount, country) + MaxJitter
    // ... and so only the two rules together can push it over the threshold
    ensures JitterInRange(jitter) ==> (a.isFraud <==> IsHighAmount(amount) && IsRiskyCountry(country))
    ensures a.userId == userId && a.modelVersion == ModelVersion
    ensures a.processingTimeMs == processTime * 1000.0
  {
    var score := Clamp(RuleTotal(amount, country) + jitter);
    var reason := if IsHighAmount(amount) then HighAmount
                  else if IsRiskyCountry(country) then RiskCountry
                  else LowRisk;
    Assessment(userId, score, score > Threshold, Threshold, reason, ModelVersion, processTime * 1000.0)
  }

  /**
   `/predict`: reject a missing or empty body, otherwise apply the field defaults
   (user `unknown`, amount 0, country `US`) and score.
   */
  function Predict(body: Body, jitter: real, processTime: real): (r: Reply)
    ensures Missing(body) <==> r.ErrorReply?
    ensures Missing(body) ==> r == ErrorReply(400, NoDataError)
    ensures !Missing(body) ==>
              var req := body.value;
              && r.assessment == Assess(req.userId.GetOr(DefaultUserId), req.amount.GetOr(0.0),
                                        req.country.GetOr(DefaultCountry), jitter, processTime)
  {
    if Missing(body) then
      ErrorReply(400, NoDataError)
    else
      var req := body.value;
      Scored(Assess(req.userId.GetOr(DefaultUserId), req.amount.GetOr(0.0),
                    req.country.GetOr(DefaultCountry), jitter, processTime))
  }

  /** An amount above the limit on its own scores at most the threshold, so it is never fraud. */
  lemma HighAmountAloneNotFraud(userId: string, amount: real, country: string, jitter: real, processTime: real)
    requires JitterInRange(jitter)
    requires IsHighAmount(amount) && !IsRiskyCountry(country)
    ensures Assess(userId, amount, country, jitter, processTime).riskScore <= Threshold
    ensures !Assess(userId, amount, country, jitter, processTime).isFraud
  {
  }

  /** A risky country on its own scores at most 0.5. */
  lemma RiskyCountryAloneAtMostHalf(userId: string, amount: real, country: string, jitter: real, processTime: real)
    requires JitterInRange(jitter)
    requires !IsHighAmount(amount) && IsRiskyCountry(country)
    ensures Assess(userId, amount, country, jitter, processTime).riskScore <= 0.5
  {
  }

  /** The scored part of a reply depends on amount, country and jitter only. */
  lemma ScoreIgnoresUserAndExtraFields(b1: Body, b2: Body, jitter: real, t1: real, t2: real)
    requires !Missing(b1) && !Missing(b2)
    requires b1.value.amount.GetOr(0.0) == b2.value.amount.GetOr(0.0)
    requires b1.value.country.GetOr(DefaultCountry) == b2.value.country.GetOr(DefaultCountry)
    ensures Predict(b1, jitter, t1).assessment.riskScore == Predict(b2, jitter, t2).assessment.riskScore
    ensures Predict(b1, jitter, t1).assessment.isFraud == Predict(b2, jitter, t2).assessment.isFraud
    ensures Predict(b1, jitter, t1).assessment.reason == Predict(b2, jitter, t2).assessment.reason
  {
  }

  /** Amount 6000 from RU: the score saturates at 1, and the amount rule still names the reason. */
  lemma HighAmountTakesPrecedence(userId: string, jitter: real, processTime: real)
    requires JitterInRange(jitter)
    ensures var a := Assess(userId, 6000.0, "RU", jitter, processTime);
            a.reason == HighAmount && a.isFraud && a.riskScore >= 0.9
  {
  }
}

=== FILE: order_ids.dfy ===
/**
 Order identifiers `ord_<seconds>_<suffix>`, built from the clock in whole
 seconds and a random four-digit suffix, each printed as a Python `int`
 (decimal, no leading zeros). Parsing an identifier recovers both numbers,
 so two identifiers collide exactly when both numbers coincide.
 */
module OrderIds {
  import opened Wrappers

  const Prefix: string := "ord_"
  const Separator: char := '_'
  const MinSuffix: nat := 1000
  const MaxSuffix: nat := 9999

  predicate IsDigit(c: char) {
    '0' <= c <= '9'
  }

  predicate AllDigits(s: string) {
    forall i :: 0 <= i < |s| ==> IsDigit(s[i])
  }

  function DigitChar(d: nat): (c: char)
    requires d < 10
    ensures IsDigit(c)
  {
    ('0' as int + d) as char
  }

  function DigitValue(c: char): (d: nat)
    requires IsDigit(c)
    ensures d < 10
    ensures DigitChar(d) == c
  {
    c as int - '0' as int
  }

  /** Python's decimal rendering of a non-negative integer. */
  function NatToString(n: nat): (s: string)
    ensures |s| >= 1
    ensures AllDigits(s)
    ensures |s| > 1 ==> s[0] != '0'
  {
    if n < 10 then [DigitChar(n)]
    else NatToString(n / 10) + [DigitChar(n % 10)]
  }

  /** The value of a string of decimal digits. */
  function ParseNat(s: string): nat
    requires AllDigits(s)
  {
    if |s| == 0 then 0
    else ParseNat(s[..|s| - 1]) * 10 + DigitValue(s[|s| - 1])
  }

  lemma {:induction false} ParseNatToString(n: nat)
    ensures ParseNat(NatToString(n)) == n
  {
    var s := NatToString(n);
    if n < 10 {
      assert s[..|s| - 1] == [];
    } else {
      var p := NatToString(n / 10);
      assert s == p + [DigitChar(n % 10)];
      assert s[..|s| - 1] == p;
      ParseNatToString(n / 10);
    }
  }

  /** The position of the first `c` in `s`, if any. */
  function IndexOf(s: string, c: char): (r: Option<nat>)
    ensures r.Some? ==> r.value < |s| && s[r.value] == c
    ensures r.Some? ==> forall i :: 0 <= i < r.value ==> s[i] != c
    ensures r.None? ==> forall i :: 0 <= i < |s| ==> s[i] != c
  {
    if |s| == 0 then None
    else if s[0] == c then Some(0)
    else match IndexOf(s[1..], c)
      case None => None
      case Some(k) => Some(k + 1)
  }

  /** The identifier the service builds: prefix, seconds, separator, suffix. */
  function OrderIdFor(seconds: nat, suffix: nat): (id: string)
    ensures |id| == |Prefix| + |NatToString(seconds)| + 1 + |NatToString(suffix)|
    ensures id[..|Prefix|] == Prefix
    ensures id[|Prefix| + |NatToString(seconds)|] == Separator
    ensures AllDigits(id[|Prefix|..|Prefix| + |NatToString(seconds)|])
    ensures AllDigits(id[|Prefix| + |NatToString(seconds)| + 1..])
  {
    Prefix + NatToString(seconds) + [Separator] + NatToString(suffix)
  }

  /** Splits an identifier back into its clock seconds and suffix. */
  function ParseOrderId(id: string): (r: Option<(nat, nat)>)
    ensures r.Some? ==> |id| > |Prefix| && id[..|Prefix|] == Prefix
  {
    if |id| < |Prefix| || id[..|Prefix|] != Prefix then None
    else
      var rest := id[|Prefix|..];
      match IndexOf(rest, Separator)
      case None => None
      case Some(k) =>
        var secs, suffix := rest[..k], rest[k + 1..];
        if |secs| > 0 && |suffix| > 0 && AllDigits(secs) && AllDigits(suffix)
        then Some((ParseNat(secs), ParseNat(suffix)))
        else None
  }

  /** In digits, separator, digits, the first separator is the one after the leading digits. */
  lemma SeparatorFollowsDigits(a: string, b: string)
    requires AllDigits(a)
    ensures IndexOf(a + [Separator] + b, Separator) == Some(|a|)
  {
    var rest := a + [Separator] + b;
    assert rest[|a|] == Separator;
    assert forall i :: 0 <= i < |a| ==> rest[i] == a[i] && rest[i] != Separator;
  }

  /** An identifier laid out as prefix, digits, separator, digits parses to the two digit values. */
  lemma ParseLayout(a: string, b: string)
    requires |a| > 0 && |b| > 0 && AllDigits(a) && AllDigits(b)
    ensures ParseOrderId(Prefix + a + [Separator] + b) == Some((ParseNat(a), ParseNat(b)))
  {
    var rest := a + [Separator] + b;
    var id := Prefix + a + [Separator] + b;
    assert id == Prefix + rest;
    assert id[..|Prefix|] == Prefix;
    assert id[|Prefix|..] == rest;
    SeparatorFollowsDigits(a, b);
    assert rest[..|a|] == a;
    assert rest[|a| + 1..] == b;
  }

  /** Parsing an identifier the service built gives back the numbers it was built from. */
  lemma ParseOrderIdFor(seconds: nat, suffix: nat)
    ensures ParseOrderId(OrderIdFor(seconds, suffix)) == Some((seconds, suffix))
  {
    ParseLayout(NatToString(seconds), NatToString(suffix));
    ParseNatToString(seconds);
    ParseNatToString(suffix);
  }

  /** A suffix drawn from 1000..9999 always prints as exactly four digits. */
  lemma SuffixHasFourDigits(suffix: nat)
    requires MinSuffix <= suffix <= MaxSuffix
    ensures |NatToString(suffix)| == 4
  {
    assert |NatToString(suffix / 1000)| == 1;
    assert |NatToString(suffix / 100)| == 2;
    assert |NatToString(suffix / 10)| == 3;
  }

  /** Two requests get the same identifier only in the same second with the same suffix. */
  lemma OrderIdInjective(s1: nat, x1: nat, s2: nat, x2: nat)
    ensures OrderIdFor(s1, x1) == OrderIdFor(s2, x2) <==> s1 == s2 && x1 == x2
  {
    if OrderIdFor(s1, x1) == OrderIdFor(s2, x2) {
      ParseOrderIdFor(s1, x1);
      ParseOrderIdFor(s2, x2);
    }
  }
}

=== FILE: order_service.dfy ===
/**
 The order service's `POST /order` handler as a pure step: validate the body,
 consult the fraud scorer (failing open), settle the payment, persist. The
 scorer's answer, the payment draw, the clock and the id suffix are inputs;
 the step returns the response and the new store.
 */
module OrderService {
  import opened Wrappers
  import opened Requests
  import FraudDetector
  import opened OrderIds
  import opened OrderStore

  const PaymentFailureRate: real := 0.1
  const InvalidError: string := "Invalid order data"
  const FraudError: string := "Fraud detected"
  const PaymentError: string := "Payment failed"
  const CreatedMessage: string := "Order created successfully"

  /**
   What the call to the scorer produced: a JSON reply (whatever its HTTP
   status), or nothing usable — a timeout, a refused connection, a body
   that is not JSON.
   */
  datatype ScoreOutcome = ScoreOk(reply: FraudDetector.Reply) | ScoreUnavailable

  datatype OrderResponse =
    | Created(orderId: string, status: Status, amount: real, message: string)   // 201
    | BadRequest(error: string)                                                // 400
    | PaymentRequired(error: string)                                           // 402
    | Forbidden(error: string, details: FraudDetector.Reply)                   // 403
  {
    function Code(): int {
      match this
      case Created(_, _, _, _) => 201
      case BadRequest(_) => 400
      case PaymentRequired(_) => 402
      case Forbidden(_, _) => 403
    }
  }

  datatype Step = Step(response: OrderResponse, store: Store)

  /** The fields of an order that passed validation. */
  datatype ValidOrder = ValidOrder(userId: string, amount: real, country: string)

  /** A falsy user id or a non-positive amount is invalid; amount defaults to 0 and country to `US`. */
  function Validate(req: Request): (v: Option<ValidOrder>)
    ensures v.Some? <==> req.userId.Some? && req.userId.value != "" && req.amount.GetOr(0.0) > 0.0
    ensures v.Some? ==> v.value.userId == req.userId.value
                        && req.amount == Some(v.value.amount)
                        && v.value.country == req.country.GetOr(DefaultCountry)
  {
    var userId := req.userId;
    var amount := req.amount.GetOr(0.0);
    var country := req.country.GetOr(DefaultCountry);
    if userId.None? || userId.value == "" || amount <= 0.0 then None
    else Some(ValidOrder(userId.value, amount, country))
  }

  /** The JSON body posted to the scorer. */
  function ScorerRequest(v: ValidOrder): (r: Request)
    ensures r.userId == Some(v.userId) && r.amount == Some(v.amount) && r.country == Some(v.country)
    ensures !Missing(Some(r))
    ensures v.userId != "" && v.amount > 0.0 ==> Validate(r) == Some(v)
  {
    Request(Some(v.userId), Some(v.amount), Some(v.country), 0)
  }

  /** The reply's `is_fraud` flag, false when absent: error replies carry no flag, so they do not reject. */
  function FraudFlag(outcome: ScoreOutcome): (f: bool)
    ensures outcome.ScoreUnavailable? ==> !f
    ensures outcome.ScoreOk? && outcome.reply.ErrorReply? ==> !f
    ensures outcome.ScoreOk? && outcome.reply.Scored? ==> (f <==> outcome.reply.assessment.isFraud)
  {
    outcome.ScoreOk? && outcome.reply.Scored? && outcome.reply.assessment.isFraud
  }

  /** The body is present and passes validation. */
  predicate Accepted(body: Body) {
    !Missing(body) && Validate(body.value).Some?
  }

  /** The record persisted for an accepted order. */
  function Record(v: ValidOrder): Order {
    Order(v.userId, v.amount, v.country, Completed)
  }

  /** One `POST /order` request against the store. */
  function CreateOrder(body: Body, scorer: ScoreOutcome, paymentDraw: real,
                       clock: nat, suffix: nat, store: Store): (out: Step)
    // which terminal state is reached
    ensures out.response.BadRequest? <==> !Accepted(body)
    ensures out.response.Forbidden? <==> Accepted(body) && FraudFlag(scorer)
    ensures out.response.PaymentRequired? <==>
              Accepted(body) && !FraudFlag(scorer) && paymentDraw < PaymentFailureRate
    ensures out.response.Created? <==>
              Accepted(body) && !FraudFlag(scorer) && paymentDraw >= PaymentFailureRate
    // what each terminal state reports
    ensures Missing(body) ==> out.response == BadRequest(NoDataError)
    ensures !Missing(body) && !Accepted(body) ==> out.response == BadRequest(InvalidError)
    ensures out.response.Forbidden? ==> out.response == Forbidden(FraudError, scorer.reply)
    ensures out.response.PaymentRequired? ==> out.response == PaymentRequired(PaymentError)
    ensures out.response.Created? ==>
              && out.response.orderId == OrderIdFor(clock, suffix)
              && out.response.status == Completed
              && Some(out.response.amount) == body.value.amount
              && out.response.message == CreatedMessage
    // the store changes only on success, and then only at the new id
    ensures !out.response.Created? ==> out.store == store
    ensures out.response.Created? ==>
              var v := Validate(body.value).value;
              && out.store.records == store.records[out.response.orderId := Order(v.userId, v.amount, v.country, Completed)]
              && out.store == Put(store, out.response.orderId, Record(v))
    ensures store.Valid() ==> out.store.Valid()
    ensures store.AllCompleted() ==> out.store.AllCompleted()
  {
    if Missing(body) then
      Step(BadRequest(NoDataError), store)
    else match Validate(body.value)
      case None => Step(BadRequest(InvalidError), store)
      case Some(v) =>
        if FraudFlag(scorer) then
          Step(Forbidden(FraudError, scorer.reply), store)
        else if paymentDraw < PaymentFailureRate then  // the uniform draw falls in the 10% failure band
          Step(PaymentRequired(PaymentError), store)
        else
          var id := OrderIdFor(clock, suffix);
          Step(Created(id, Completed, v.amount, CreatedMessage), Put(store, id, Record(v)))
  }

  /**
   Against this service's own fraud detector, the flag is raised exactly when
   the detector scored the body and judged it fraud; its 400 reply never flags.
   */
  lemma FraudFlagOnDetectorReply(body: Body, jitter: real, processTime: real)
    ensures FraudFlag(ScoreOk(FraudDetector.Predict(body, jitter, processTime)))
            <==> !Missing(body) && FraudDetector.Predict(body, jitter, processTime).assessment.isFraud
  {
  }

  /** A rejected body never reaches the scorer or the payment step: neither input matters. */
  lemma RejectedIgnoresScorerAndPayment(body: Body, s1: ScoreOutcome, s2: ScoreOutcome,
                                        d1: real, d2: real, clock: nat, suffix: nat, store: Store)
    requires !Accepted(body)
    ensures CreateOrder(body, s1, d1, clock, suffix, store) == CreateOrder(body, s2, d2, clock, suffix, store)
  {
  }

  /** A fraud rejection does not depend on the payment draw. */
  lemma FraudIgnoresPayment(body: Body, scorer: ScoreOutcome, d1: real, d2: real,
                            clock: nat, suffix: nat, store: Store)
    requires FraudFlag(scorer)
    ensures CreateOrder(body, scorer, d1, clock, suffix, store) == CreateOrder(body, scorer, d2, clock, suffix, store)
  {
  }

  /** Fail-open: an unavailable scorer leads exactly where a not-fraud reply does. */
  lemma FailOpen(body: Body, reply: FraudDetector.Reply, draw: real, clock: nat, suffix: nat, store: Store)
    requires !FraudFlag(ScoreOk(reply))
    ensures CreateOrder(body, ScoreUnavailable, draw, clock, suffix, store)
            == CreateOrder(body, ScoreOk(reply), draw, clock, suffix, store)
    ensures CreateOrder(body, ScoreUnavailable, draw, clock, suffix, store).response.Code() != 403
  {
  }

  /** The scorer always scores the body this service sends it. */
  lemma ScorerAcceptsOrderRequest(v: ValidOrder, jitter: real, processTime: real)
    ensures FraudDetector.Predict(Some(ScorerRequest(v)), jitter, processTime).Scored?
  {
  }

  /**
   With the real scorer behind the call and jitter in its drawn range, an
   accepted order is rejected as fraud exactly when its amount is above 5000
   and its country is one of the risky ones.
   */
  lemma FraudRejectionEndToEnd(body: Body, jitter: real, processTime: real, draw: real,
                               clock: nat, suffix: nat, store: Store)
    requires Accepted(body)
    requires FraudDetector.JitterInRange(jitter)
    ensures var v := Validate(body.value).value;
            var scorer := ScoreOk(FraudDetector.Predict(Some(ScorerRequest(v)), jitter, processTime));
            CreateOrder(body, scorer, draw, clock, suffix, store).response.Forbidden?
            <==> FraudDetector.IsHighAmount(v.amount) && FraudDetector.IsRiskyCountry(v.country)
  {
  }

  /**
   Identifiers are not unique: a second success in the same second with the same
   suffix overwrites the earlier record, and the store does not grow.
   */
  lemma CollisionOverwrites(body: Body, scorer: ScoreOutcome, draw: real,
                            clock: nat, suffix: nat, store: Store)
    requires store.Valid()
    requires OrderIdFor(clock, suffix) in store.records
    ensures var out := CreateOrder(body, scorer, draw, clock, suffix, store);
            out.response.Created? ==>
              && out.store.ids == store.ids
              && |out.store.records| == |store.records|
              && ListOrders(out.store) == ListOrders(store)
  {
  }

  /** One request to `POST /order`, with the randomness and the clock it meets. */
  datatype Call = Call(body: Body, scorer: ScoreOutcome, paymentDraw: real, clock: nat, suffix: nat)

  /** Successive requests against the one module-level store, handled one after another. */
  function Run(store: Store, calls: seq<Call>): (r: (seq<OrderResponse>, Store))
    ensures |r.0| == |calls|
    ensures store.Valid() ==> r.1.Valid()
    ensures store.AllCompleted() ==> r.1.AllCompleted()
    ensures store.records.Keys <= r.1.records.Keys
    // earlier orders keep their places in the listing order
    ensures |store.ids| <= |r.1.ids| && r.1.ids[..|store.ids|] == store.ids
  {
    if |calls| == 0 then ([], store)
    else
      var (responses, s) := Run(store, calls[..|calls| - 1]);
      var c := calls[|calls| - 1];
      var step := CreateOrder(c.body, c.scorer, c.paymentDraw, c.clock, c.suffix, s);
      (responses + [step.response], step.store)
  }

  /**
   The i-th response of a run is the reply `create_order` gives the i-th request
   against the store the earlier requests left behind.
   */
  lemma {:induction false} RunResponses(store: Store, calls: seq<Call>, i: nat)
    requires i < |calls|
    ensures var c := calls[i];
            Run(store, calls).0[i]
            == CreateOrder(c.body, c.scorer, c.paymentDraw, c.clock, c.suffix, Run(store, calls[..i]).1).response
  {
    var prefix := calls[..|calls| - 1];
    if i < |calls| - 1 {
      RunResponses(store, prefix, i);
      assert prefix[..i] == calls[..i];
    } else {
      assert calls[..i] == prefix;
    }
  }

  /**
   After any run, an order id is in the store exactly when it was there before
   or some request of the run was answered 201 with that id.
   */
  lemma {:induction false} RunPersistence(store: Store, calls: seq<Call>, id: string)
    ensures var (responses, s) := Run(store, calls);
            id in s.records <==>
              id in store.records
              || exists i :: 0 <= i < |responses| && responses[i].Created? && responses[i].orderId == id
  {
    if |calls| > 0 {
      var prefix := calls[..|calls| - 1];
      RunPersistence(store, prefix, id);
      var (rs, s) := Run(store, prefix);
      var c := calls[|calls| - 1];
      var step := CreateOrder(c.body, c.scorer, c.paymentDraw, c.clock, c.suffix, s);
      var responses := rs + [step.response];
      assert Run(store, calls) == (responses, step.store);
      assert forall i :: 0 <= i < |rs| ==> responses[i] == rs[i];
      if id in step.store.records && id !in store.records && id !in s.records {
        assert responses[|rs|].Created? && responses[|rs|].orderId == id;
      }
    }
  }

  /** Scenario: u1 buys 100 from US; the scorer clears it and payment succeeds. */
  lemma SmallDomesticOrderCompletes(processTime: real)
    ensures var body := Some(Request(Some("u1"), Some(100.0), Some("US"), 0));
            var reply := FraudDetector.Predict(body, 0.0, processTime);
            && reply.assessment.riskScore == 0.0 && !reply.assessment.isFraud
            && var out := CreateOrder(body, ScoreOk(reply), 0.5, 1700000000, 1234, Empty);
            && out.response.Code() == 201
            && out.store.records == map[OrderIdFor(1700000000, 1234) := Order("u1", 100.0, "US", Completed)]
  {
  }

  /** Scenario: u2 buys 6000 from RU; the scorer flags it for the amount and nothing is stored. */
  lemma LargeRiskyOrderRejected(processTime: real, store: Store)
    ensures var body := Some(Request(Some("u2"), Some(6000.0), Some("RU"), 0));
            var reply := FraudDetector.Predict(body, 0.0, processTime);
            && reply.assessment.riskScore == 1.0 && reply.assessment.isFraud
            && reply.assessment.reason == FraudDetector.HighAmount
            && var out := CreateOrder(body, ScoreOk(reply), 0.5, 1700000000, 1234, store);
            && out.response.Code() == 403 && out.store == store
  {
  }
}

=== FILE: order_store.dfy ===
/**
 The order service's in-memory `orders_db`: a Python dict from order id to
 order record. A dict remembers the order in which keys were first inserted,
 and assigning to an existing key replaces its record in place, so the model
 keeps that order next to the map.
 */
module OrderStore {

  /**
   The outcome labels the order service uses. Only `Completed` is ever stored, and
   the model produces no other; the rest label unmodelled outcome metrics and are
   kept only so that the status type is complete.
   */
  datatype Status = Completed | Fraud | PaymentFailed | Invalid | Error

  datatype Order = Order(userId: string, amount: real, country: string, status: Status)

  predicate Distinct(s: seq<string>) {
    forall i, j :: 0 <= i < j < |s| ==> s[i] != s[j]
  }

  datatype Store = Store(ids: seq<string>, records: map<string, Order>) {

    /** `ids` lists every key of `records` once, in first-insertion order. */
    predicate Valid() {
      && Distinct(ids)
      && (forall k :: k in records ==> k in ids)
      && (forall i :: 0 <= i < |ids| ==> ids[i] in records)
    }

    /** Only records of completed orders are ever persisted. */
    predicate AllCompleted() {
      forall k :: k in records ==> records[k].status == Completed
    }
  }

  /** Dict assignment at `id`: a new key goes last, an existing key keeps its place. */
  function Put(store: Store, id: string, order: Order): (s: Store)
    ensures s.records == store.records[id := order]
    ensures id in store.records ==> s.ids == store.ids
    ensures id !in store.records ==> s.ids == store.ids + [id]
    ensures store.Valid() ==> s.Valid()
    ensures store.AllCompleted() && order.status == Completed ==> s.AllCompleted()
  {
    if id in store.records then Store(store.ids, store.records[id := order])
    else Store(store.ids + [id], store.records[id := order])
  }

  const Empty: Store := Store([], map[])

  /** The body of `GET /orders`. */
  datatype Listing = Listing(orders: seq<string>, count: nat)

  /** The listing: every stored id in insertion order, and how many there are. */
  function ListOrders(store: Store): (l: Listing)
    requires store.Valid()
    ensures Distinct(l.orders)
    ensures forall k :: k in l.orders <==> k in store.records
    ensures l.count == |store.records| == |l.orders|
  {
    DistinctCard(store.ids);
    assert store.records.Keys == set k | k in store.ids;
    Listing(store.ids, |store.records|)
  }

  /** A sequence without repetitions has as many elements as its set. */
  lemma {:induction false} DistinctCard(s: seq<string>)
    requires Distinct(s)
    ensures |set k | k in s| == |s|
  {
    if |s| > 0 {
      var init := s[..|s| - 1];
      var last := s[|s| - 1];
      assert Distinct(init);
      DistinctCard(init);
      assert s == init + [last];
      assert (set k | k in s) == (set k | k in init) + {last};
      assert last !in init;
    }
  }

  /** Storing a fresh id lists it after every earlier order; a reused id keeps its place. */
  lemma ListingAfterPut(store: Store, id: string, order: Order)
    requires store.Valid()
    ensures id !in store.records ==>
              ListOrders(Put(store, id, order)).orders == ListOrders(store).orders + [id]
    ensures id in store.records ==>
              ListOrders(Put(store, id, order)).orders == ListOrders(store).orders
    ensures ListOrders(Put(store, id, order)).count
              == ListOrders(store).count + (if id in store.records then 0 else 1)
  {
  }
}

=== FILE: requests.dfy ===
/**
 The JSON body both services receive on their POST endpoints. Each of the three
 fields the services read may be absent; every other key of the JSON object is
 only counted, because its only effect is on whether the object is empty.
 */
module Requests {
  import opened Wrappers

  datatype Request = Request(
    userId: Option<string>,
    amount: Option<real>,
    country: Option<string>,
    extraFields: nat)   // keys other than user_id, amount and country
  {
    /** An empty JSON object, which Python treats as falsy. */
    predicate IsEmptyObject() {
      userId.None? && amount.None? && country.None? && extraFields == 0
    }
  }

  /** How many keys the JSON object has. */
  function KeyCount(req: Request): nat {
    (if req.userId.Some? then 1 else 0) + (if req.amount.Some? then 1 else 0)
    + (if req.country.Some? then 1 else 0) + req.extraFields
  }

  /** The field default and the missing-body error text, written identically by both services. */
  const DefaultCountry: string := "US"
  const NoDataError: string := "No JSON data provided"

  /** The parsed body: `None` stands for a request that carried no JSON object. */
  type Body = Option<Request>

  /** Python's falsiness test on the body: no body, or a dict without keys. */
  function Missing(body: Body): (m: bool)
    ensures m <==> body.None? || KeyCount(body.value) == 0
  {
    body.None? || body.value.IsEmptyObject()
  }
}

=== FILE: wrappers.dfy ===
/** The optional value used for JSON fields that may be absent. */
module Wrappers {

  datatype Option<+T> = None | Some(value: T) {

    /** The value when present, otherwise `default` (a dictionary lookup with a default). */
    function GetOr(default: T): (r: T)
      ensures Some? ==> r == value
      ensures None? ==> r == default
    {
      match this
      case Some(v) => v
      case None => default
    }
  }
}
